=== FILE: README.md ===
# ToDo command interpretation, modelled in Dafny

ToDo is a small command-line task tracker. `main` reads flags, builds a task
from `-add`, rewrites the task at `-id` on `-update` and removes it on
`-delete`, asking the user to type `Y` before either of the last two. A
task's id is its zero-based position in the collection.

This project models that command interpretation as pure functions over an
immutable collection `seq<Task>`:

- `wrappers.dfy` — `Option`, used for the due time and parse results.
- `text.dfy` — Go's white-space test (`unicode.IsSpace`, the Unicode
  White_Space set: tab to carriage return, space, U+0085, U+00A0, U+1680,
  U+2000 to U+200A, U+2028, U+2029, U+202F, U+205F and U+3000), newline
  removal, and `strings.TrimSpace` as its two index scans. The
  non-white-space content (`KeepNonSpace`) is the reference view that both
  clean-up steps preserve.
- `due_date.dfy` — `date_flag_valid`. Its regular expression is anchored and
  every element matches one character, so it becomes a sequence of
  character classes matched position by position. It is proved equal to an
  explicit per-position description (`DueShape`).
- `strconv.dfy` — `strconv.Atoi` with its error discarded. The accepted
  syntax is a separate predicate (`DecimalSyntax`), and the parse is proved
  against an independent decimal rendering (`ShowInt`).
- `tasks.dfy` — the `Task` record and the two positional collection
  operations the commands call: register (append) and delete by id.
- `commands.dfy` — the flags, the confirmation rule, the field merge, and the
  add, update and delete steps. `Run` chains the three steps. Go's `int` is
  modelled as 64-bit, so `id + 1` in the id guard wraps around.

A `Step` is `Continue(tasks)`, `Exited` or `Panicked`. `Continue(tasks)`
carries the collection that goes on to sorting, display and saving.
`Exited` means `main` returned early, so nothing is saved, not even a task
added in the same call. `Panicked` means indexing `Tasks[id]` failed.

## Model

| member | source | states |
|---|---|---|
| Text.RemoveNewlines | main.go:107 | the cleaned answer contains no newline, is shorter by exactly the number of newlines, and keeps every other character in order: the one at position i moves to i minus the newlines before it |
| Text.RemoveNewlinesKeepsNonSpace | main.go:107 | deleting newlines never changes the answer's non-white-space characters |
| Text.TrimStart | main.go:108 | the leading scan skips only white space and stops at the first character that is not white space, or at the end |
| Text.TrimStop | main.go:108 | the trailing scan drops only white space and stops after the last character that is not white space, or at the start |
| Text.TrimSpace | main.go:108 | the trimmed answer is one contiguous slice of the answer, beginning where the leading white space ends; everything before and after it is white space, and it neither starts nor ends with white space |
| Text.KeepNonSpaceOfSlice | main.go:108 | cutting white space off both ends of a string leaves its non-white-space characters unchanged |
| Text.KeepNonSpacePadded | main.go:108-110 | one non-white-space character with white space on both sides is the string's whole non-white-space content |
| Text.TrimSpaceEmptyIff | main.go:108 | trimming leaves nothing exactly when the answer is all white space |
| Text.TrimSpaceKeepsNonSpace | main.go:108 | trimming keeps every non-white-space character, in order |
| Text.TrimSpaceIsSingle | main.go:108-110 | the trimmed answer is one non-blank character c iff c is the answer's only non-white-space character |
| DueDate.MatchesAnchored | main.go:45-46 | an anchored match of the fixed-width pattern only succeeds on a string of the pattern's length |
| DueDate.MatchesAnchoredPointwise | main.go:45-46 | an anchored match holds iff the lengths agree and each class admits the character at its position |
| DueDate.DateFlagValid | main.go:44-51 | an accepted due string has exactly 19 characters |
| DueDate.DateFlagValidIff | main.go:45 | the accepted language is exactly: digits at 0-3, 5-6, 8-9, 11-12 and 14-15; `-` at 4 and 7; space at 10 and 16; `:` at 13; `A`, `P` or `\|` at 17; `M` at 18 |
| DueDate.DueShapePointwise | main.go:45 | the per-position description is exactly the pattern read class by class, in both directions |
| DueDate.MeridiemSlot | main.go:45 | in an accepted string the meridiem may be `A`, `P` or `\|` and nothing else, because `[A\|P]` is a bracket expression |
| DueDate.LexicalOnly | main.go:44-51 | no range check is made: month, day, hour and minute 99 and the `\|M` meridiem pass |
| DueDate.Refused | main.go:41-51 | the empty default of `-due`, a one-digit hour, lower-case `pm` and a trailing newline are refused |
| Strconv.DigitsValue | main.go:79 | a digit string of length k denotes a value below 10^k |
| Strconv.AtoiMagnitude | main.go:79 | the parsed priority has fewer than 10^k in magnitude, k being the length of the text after its sign |
| Strconv.ShowNat | main.go:79 | the decimal rendering of n is a non-empty digit string whose value is n |
| Strconv.ParseDecimal | main.go:79 | the parse succeeds exactly on an optional `+` or `-` followed by one or more ASCII digits, and a negative value only comes from a leading `-` |
| Strconv.Atoi | main.go:79 | a non-zero priority only comes from text in that decimal syntax; any other text gives 0 |
| Strconv.ParseShowInt | main.go:115 | parsing the decimal rendering of any integer gives that integer back |
| Strconv.ParseSigned | main.go:115 | a non-empty digit string parses to its value with no sign or a `+`, and to the negated value with a `-` |
| Strconv.ParseSignAndZeros | main.go:115 | no sign, `+` or `-`, then any number of zeros, then the rendering of n parses to n, n and -n respectively |
| Strconv.ParsedIsPaddedRendering | main.go:115 | every text that parses is an optional sign, some zeros and the rendering of the value's magnitude; with ParseSignAndZeros, a well-formed `-priority` sets exactly the value it spells |
| Strconv.StripZeros | main.go:115 | every digit string is a run of zeros followed by a digit string without a redundant leading zero |
| Strconv.CanonicalDigits | main.go:115 | a digit string without a redundant leading zero is the rendering of its own value |
| Strconv.AtoiSyntaxErrors | main.go:79 | empty text, a bare sign, surrounding blanks, a fraction and letters all give priority 0 |
| Tasks.Register | main.go:83 | registration appends the task and answers the id it now has: the old length, with earlier tasks untouched |
| Tasks.RemoveAt | main.go:145 | deleting id removes that one task: earlier tasks keep their ids and later ones move down by one |
| Tasks.RemoveAtReinsert | main.go:145 | putting the deleted task back at its position restores the collection |
| Tasks.RegisterThenRemove | main.go:83 | deleting the id registration answered restores the collection before registration |
| Commands.AddWrap | main.go:90 | `+` on Go's 64-bit `int` equals mathematical addition when in range and wraps by 2^64 otherwise |
| Commands.ConfirmedIff | main.go:107-110 | an answer (to the update prompt, or to the delete prompt at lines 141-144) confirms iff its only non-white-space character is upper-case `Y` |
| Commands.ConfirmsPaddedY | main.go:107-110 | `Y` with any white space on either side confirms; the lemma holds for every string, newlines included, while a real answer line (read up to its first newline, main.go:103 and 137) carries at most a trailing newline |
| Commands.BlankRefused | main.go:107-110 | an answer of white space only, an empty line included, does not confirm |
| Commands.LowercaseRefused | main.go:107-110 | a lower-case `y`, however it is padded, does not confirm |
| Commands.AtoiShortFits | main.go:115 | a `-priority` text of fewer than 19 characters parses to a value strictly inside Go's 64-bit `int` range, so there the unbounded parse agrees exactly with Go's, which cannot overflow on such text |
| Commands.IdExists | main.go:90-95 | the intended guard only admits ids the written guard admits, and for any length Go can hold it is the written guard minus the negative ids and the largest `int` |
| Commands.GuardGap | main.go:90-95 | the written guard (`IdGuardPasses`, the same test at line 125 for delete) admits exactly the existing ids, the negative ids and the largest `int` |
| Commands.DueFromFlag | main.go:80-82 | a due time is set exactly when `-due` passes the date check, and it carries the 19-character text |
| Commands.MakeTask | main.go:78-82 | the added task has the given name, the parsed priority (0 on a syntax error), and a due time iff `-due` is valid |
| Commands.UpdateFields | main.go:111-119 | the name changes only when `-name` is non-empty, the priority only when `-priority` is non-empty, the due time only when `-due` is valid; each given value replaces the old one |
| Commands.UpdateFieldsIdempotent | main.go:111-119 | applying the same update twice gives the same task as applying it once |
| Commands.UpdateFieldsNoFlags | main.go:111-119 | with no name, no priority and no valid date, the update leaves the task unchanged |
| Commands.MakeTaskIsMergeIntoNew | main.go:78-82 | the add step builds the same task as merging the flags into a fresh task of that name |
| Commands.AddStep | main.go:77-86 | a task is appended only when `-add` is set and the name is non-empty; otherwise the collection is untouched |
| Commands.ApplyUpdate | main.go:95-119 | the update rewrites only position id: the length is kept and every other task is unchanged |
| Commands.UpdateStep | main.go:89-121 | update exits iff the id is at or past the end (and below the largest `int`) and panics iff it is negative or the largest `int`; otherwise only position id can change, and only on a confirmed answer |
| Commands.DeleteStep | main.go:124-149 | delete exits and panics on the same ids as update; without confirmation nothing changes, with it exactly position id is removed |
| Commands.Run | main.go:76-149 | when `main` carries on, the collection's length is the old length, plus one for `-add` with a non-empty name, minus one for a confirmed delete; an update never changes the length |
| Commands.RunOutcome | main.go:76-149 | the id guard sees the collection after the add step: `main` returns early iff update or delete names an id at or past its end, and panics iff the id is negative or the largest `int` |
| Commands.RunUnconfirmed | main.go:107-148 | when neither answer confirms, the only change `main` makes is the add step's |
| Commands.RunDefaults | main.go:33-41 | with every flag at its registered default (`DefaultFlags`: no `-add`, `-update` or `-delete`, id 0, empty name, priority and due) the collection is handed on unchanged |
| Commands.DefaultDueSetsNothing | main.go:41 | an omitted `-due` sets no due time on add and keeps the old one on update |
| Commands.AddThenUpdateNewTask | main.go:77-120 | adding and updating the new task's id in one call leaves exactly the task the add step built |
| Commands.BadIdPanics | main.go:90-95 | `-id -1` or the largest `int` with update or delete panics instead of reporting a missing task |

## Left out

- The `tasks` package's source is not part of this model. `NewTaskMaster`, `SortByPriority`, `TableDisplayTo`, `SaveToJson` and `LoadFromJson` are not modelled, so neither are the `-sort` and `-display` flags. The three calls `main` makes into it are modelled under an assumption: a task id is its zero-based position, `NewTask` (main.go:78) gives priority 0 and no due time, `RegisterTask` appends and answers the old length, and `DeleteTaskId` removes that position. `Tasks.NewTask` carries no contract of its own; `Commands.MakeTaskIsMergeIntoNew` states what the add step builds from it.
- The JSON file check, load and save (main.go:70-74, 162) are file I/O.
- Flag registration and parsing (main.go:31-42, 63) is library plumbing. The parsed flags are an input `Flags` record; `DefaultFlags` holds the registered defaults.
- Console output and the prompt text are left out. Standard-input reading is left out too; each answer line is an input string.
- `log.Fatal` when reading the answer fails (end of input before a newline) is not modelled.
- Each prompt makes a fresh `bufio.Reader` on standard input. If the first reader buffers the second answer line, the second read can hit end of input. This is not modelled: the two answers are independent inputs.
- `date_flag_to_time` (`time.Parse` and its `log.Fatal`) is not modelled. A due time is represented by the validated text (`DueStamp`). A string that passes the lexical check but is not a real time, such as month 99 or the `|M` meridiem, makes the program exit in `time.Parse`. The model records the text instead.
- Strconv.ParseDecimal, Strconv.Atoi: integers are unbounded. `strconv.Atoi`'s 64-bit range error and the clamped value it returns for out-of-range input are not modelled: for `-priority 99999999999999999999` Go sets 9223372036854775807 and the model sets 99999999999999999999. `Commands.AtoiShortFits` shows the two agree on every text shorter than 19 characters.
- Go strings are bytes and the model's are characters. The regular expression, `strings.TrimSpace` and `strconv.Atoi` all decode UTF-8, and every class in the pattern matches only ASCII, so on valid UTF-8 both accept and trim the same texts. A Dafny `string` cannot hold invalid UTF-8, which the answer line and the `-name`, `-priority` and `-due` values may contain. No behaviour is lost: all three treat an invalid byte as a character that is neither white space, nor a digit, nor any other character the pattern names.

## Findings

| source | as written | input that shows it | evidently intended | confidence | as-written member | corrected member |
|---|---|---|---|---|---|---|
| main.go:90-95 (also 125-129) | `len(task_master.Tasks) < (*task_id + 1)` is the only check before `Tasks[*task_id]` | `-update -id -1` (or `-id 9223372036854775807`, where `id + 1` wraps to the smallest `int`) passes the guard, and indexing then panics | ids outside `0 <= id < len` are reported as "Task id does not exist" | high; not executed | Commands.GuardGap | Commands.AtoiShortFits | main.go:115 | a `-priority` text of fewer than 19 characters parses to a value strictly inside Go's 64-bit `int` range, so there the unbounded parse agrees exactly with Go's, which cannot overflow on such text |
| Commands.IdExists |

=== FILE: commands.dfy ===
/**
  The command interpretation in `main`: the add step, then update, then
  delete, each driven by the parsed flags. Update and delete check the id,
  ask for confirmation on standard input and act only on an answer of `Y`.
 */
module Commands {
  import opened Wrappers
  import opened Text
  import opened DueDate
  import opened Strconv
  import opened Tasks

  /** Go's `int` on a 64-bit platform. */
  const MinInt: int := -0x8000_0000_0000_0000
  const MaxInt: int := 0x7FFF_FFFF_FFFF_FFFF
  type Int = x: int | MinInt <= x <= MaxInt

  /** Two's-complement addition, as Go's `+` on `int`. */
  function AddWrap(a: Int, b: Int): (r: Int)
    ensures MinInt <= a + b <= MaxInt ==> r == a + b
    ensures a + b > MaxInt ==> r == a + b - 0x1_0000_0000_0000_0000
    ensures a + b < MinInt ==> r == a + b + 0x1_0000_0000_0000_0000
  {
    (a + b - MinInt) % 0x1_0000_0000_0000_0000 + MinInt
  }

  /** The flags the add, update and delete steps read. */
  datatype Flags = Flags(
    add: bool,
    update: bool,
    delete: bool,
    id: Int,
    priority: string,
    name: string,
    due: string)

  /** Every flag at its registered default. */
  const DefaultFlags: Flags := Flags(false, false, false, 0, "", "", "")

  /**
    Where `main` stands after a step: it carries on with a collection, it
    has returned early (so nothing is sorted, shown or saved), or indexing
    the collection has panicked.
   */
  datatype Step = Continue(tasks: seq<Task>) | Exited | Panicked

  // ---------------------------------------------------------------------------
  // Confirmation

  /** The answer line with every newline deleted and the ends trimmed must be exactly `Y`. */
  predicate Confirmed(raw: string) {
    TrimSpace(RemoveNewlines(raw)) == "Y"
  }

  /** An answer confirms iff its only non-white-space character is an upper-case `Y`. */
  lemma ConfirmedIff(raw: string)
    ensures Confirmed(raw) <==> KeepNonSpace(raw) == "Y"
  {
    RemoveNewlinesKeepsNonSpace(raw);
    TrimSpaceIsSingle(RemoveNewlines(raw), 'Y');
  }

  /** A `Y` padded on either side by any white space, newlines included, confirms. */
  lemma ConfirmsPaddedY(before: string, after: string)
    requires AllSpace(before) && AllSpace(after)
    ensures Confirmed(before + "Y" + after)
  {
    ConfirmedIff(before + "Y" + after);
    KeepNonSpacePadded(before, 'Y', after);
  }

  /** An answer of nothing but white space, such as an empty line, does not confirm. */
  lemma BlankRefused(raw: string)
    requires AllSpace(raw)
    ensures !Confirmed(raw)
  {
    ConfirmedIff(raw);
    KeepNonSpaceEmptyIff(raw);
  }

  /** A lower-case `y`, however it is padded, does not confirm. */
  lemma LowercaseRefused(before: string, after: string)
    requires AllSpace(before) && AllSpace(after)
    ensures !Confirmed(before + "y" + after)
  {
    ConfirmedIff(before + "y" + after);
    KeepNonSpacePadded(before, 'y', after);
  }

  // ---------------------------------------------------------------------------
  // The id guard

  /** The guard as written: the id is reported missing when `len(Tasks) < id + 1`, in 64-bit arithmetic. */
  predicate IdGuardPasses(n: nat, id: Int) {
    !(n < AddWrap(id, 1))
  }

  /**
    Text of fewer than 19 characters, the length below which Go's `Atoi`
    on a 64-bit `int` cannot overflow, parses to a value that fits `Int`:
    there the unbounded parse and Go's agree exactly.
   */
  lemma AtoiShortFits(s: string)
    requires |s| < 19
    ensures MinInt < Atoi(s) < MaxInt
  {
    AtoiMagnitude(s);
    Pow10Monotone(|s| - SignLength(s), 18);
    assert Pow10(3) == 1_000;
    Pow10Add(3, 3);
    Pow10Add(6, 6);
    Pow10Add(12, 6);
  }

  /** The intended guard: the id is a position of the collection. */
  function IdExists(n: nat, id: Int): (r: bool)
    ensures r ==> IdGuardPasses(n, id)
    ensures n <= MaxInt ==> (r <==> IdGuardPasses(n, id) && 0 <= id < MaxInt)
  {
    0 <= id < n
  }

  /**
    For any collection length Go can hold, the written guard lets through
    exactly the ids that exist plus the negative ones and the largest `int`,
    whose `id + 1` wraps round to the smallest.
   */
  lemma GuardGap(n: nat, id: Int)
    requires n <= MaxInt
    ensures IdGuardPasses(n, id) <==> IdExists(n, id) || id < 0 || id == MaxInt
  {
  }

  // ---------------------------------------------------------------------------
  // Field values taken from the flags

  /** The due time a `-due` value sets: present exactly when the text passes the date check. */
  function DueFromFlag(due: string): (r: Option<DueStamp>)
    ensures r.Some? <==> DateFlagValid(due)
    ensures r.Some? ==> r.value.text == due && |due| == 19
  {
    if DateFlagValid(due) then Some(DueStamp(due)) else None
  }

  /** The task the add step builds: the name, the parsed priority (0 on error), and a due time only for a valid `-due`. */
  function MakeTask(f: Flags): (t: Task)
    ensures t.name == f.name
    ensures t.priority == Atoi(f.priority)
    ensures t.due.Some? <==> DateFlagValid(f.due)
  {
    var t := NewTask(f.name).(priority := Atoi(f.priority));
    match DueFromFlag(f.due)
    case Some(d) => t.(due := Some(d))
    case None => t
  }

  /** The update merge: a field is overwritten only when its flag is given (the date only when valid). */
  function UpdateFields(t: Task, f: Flags): (r: Task)
    ensures r.name == (if f.name != "" then f.name else t.name)
    ensures r.name != t.name ==> f.name != ""
    ensures f.priority != "" ==> r.priority == Atoi(f.priority)
    ensures f.priority == "" ==> r.priority == t.priority
    ensures r.due != t.due ==> DateFlagValid(f.due)
    ensures DateFlagValid(f.due) ==> r.due == Some(DueStamp(f.due))
  {
    var named := if f.name != "" then t.(name := f.name) else t;
    var prioritised := if f.priority != "" then named.(priority := Atoi(f.priority)) else named;
    match DueFromFlag(f.due)
    case Some(d) => prioritised.(due := Some(d))
    case None => prioritised
  }

  /** Applying the same flags twice is the same as applying them once. */
  lemma UpdateFieldsIdempotent(t: Task, f: Flags)
    ensures UpdateFields(UpdateFields(t, f), f) == UpdateFields(t, f)
  {
  }

  /** With no name, no priority and no valid date the merge changes nothing. */
  lemma UpdateFieldsNoFlags(t: Task, f: Flags)
    requires f.name == "" && f.priority == "" && !DateFlagValid(f.due)
    ensures UpdateFields(t, f) == t
  {
  }

  /** Adding builds the same task as merging the flags into a fresh task of that name. */
  lemma MakeTaskIsMergeIntoNew(f: Flags)
    ensures MakeTask(f) == UpdateFields(NewTask(f.name), f)
  {
    AtoiSyntaxErrors();
  }

  // ---------------------------------------------------------------------------
  // The steps of main

  /** The add step registers a task only when `-add` is set and the name is non-empty. */
  function AddStep(ts: seq<Task>, f: Flags): (r: seq<Task>)
    ensures f.add && f.name != "" ==> r == ts + [MakeTask(f)]
    ensures !(f.add && f.name != "") ==> r == ts
  {
    if f.add && f.name != "" then Register(ts, MakeTask(f)).0 else ts
  }

  /** A confirmed update rewrites the task at `id` in place. */
  function ApplyUpdate(ts: seq<Task>, id: nat, f: Flags): (r: seq<Task>)
    requires id < |ts|
    ensures |r| == |ts|
    ensures r[id] == UpdateFields(ts[id], f)
    ensures forall j :: 0 <= j < |ts| && j != id ==> r[j] == ts[j]
  {
    ts[id := UpdateFields(ts[id], f)]
  }

  /** The update step: id guard, then confirmation, then the merge. */
  function UpdateStep(ts: seq<Task>, f: Flags, answer: string): (r: Step)
    ensures r == Exited <==> f.update && |ts| <= f.id < MaxInt
    ensures r == Panicked <==> f.update && (f.id < 0 || (f.id == MaxInt && |ts| <= MaxInt))
    ensures r.Continue? ==> |r.tasks| == |ts|
    ensures r.Continue? ==> forall j :: 0 <= j < |ts| && j != f.id ==> r.tasks[j] == ts[j]
    ensures r.Continue? && !(f.update && Confirmed(answer)) ==> r.tasks == ts
    ensures r.Continue? && f.update && Confirmed(answer) ==>
              0 <= f.id < |ts| && r.tasks[f.id] == UpdateFields(ts[f.id], f)
  {
    if !f.update then Continue(ts)
    else if !IdGuardPasses(|ts|, f.id) then Exited
    else if !IdExists(|ts|, f.id) then Panicked
    else if Confirmed(answer) then Continue(ApplyUpdate(ts, f.id, f))
    else Continue(ts)
  }

  /** The delete step: id guard, then confirmation, then positional removal. */
  function DeleteStep(ts: seq<Task>, f: Flags, answer: string): (r: Step)
    ensures r == Exited <==> f.delete && |ts| <= f.id < MaxInt
    ensures r == Panicked <==> f.delete && (f.id < 0 || (f.id == MaxInt && |ts| <= MaxInt))
    ensures r.Continue? && !(f.delete && Confirmed(answer)) ==> r.tasks == ts
    ensures r.Continue? && f.delete && Confirmed(answer) ==>
              && 0 <= f.id < |ts|
              && |r.tasks| == |ts| - 1
              && r.tasks[..f.id] == ts[..f.id]
              && r.tasks[f.id..] == ts[f.id + 1..]
  {
    if !f.delete then Continue(ts)
    else if !IdGuardPasses(|ts|, f.id) then Exited
    else if !IdExists(|ts|, f.id) then Panicked
    else if Confirmed(answer) then Continue(RemoveAt(ts, f.id))
    else Continue(ts)
  }

  /**
    The add, update and delete steps of `main` in order; the result is the
    collection handed on to sorting, display and saving, unless `main`
    returned early or panicked.
   */
  function Run(ts: seq<Task>, f: Flags, updateAnswer: string, deleteAnswer: string): (r: Step)
    ensures r.Continue? ==>
              |r.tasks| == |ts| + (if f.add && f.name != "" then 1 else 0)
                                - (if f.delete && Confirmed(deleteAnswer) then 1 else 0)
  {
    match UpdateStep(AddStep(ts, f), f, updateAnswer)
    case Continue(updated) => DeleteStep(updated, f, deleteAnswer)
    case other => other
  }

  /**
    The guard looks at the collection after the add step: `main` returns
    early iff update or delete is asked for with an id at or past its end,
    and panics iff it is asked for with a negative id or the largest `int`.
   */
  lemma RunOutcome(ts: seq<Task>, f: Flags, a: string, b: string)
    requires |ts| < MaxInt
    ensures Run(ts, f, a, b) == Exited <==> (f.update || f.delete) && |AddStep(ts, f)| <= f.id < MaxInt
    ensures Run(ts, f, a, b) == Panicked <==> (f.update || f.delete) && (f.id < 0 || f.id == MaxInt)
  {
    var added := AddStep(ts, f);
    var u := UpdateStep(added, f, a);
    if u.Continue? {
      assert |u.tasks| == |added|;
    }
  }

  /** Without a confirmed update or delete, the only change is the add step's. */
  lemma RunUnconfirmed(ts: seq<Task>, f: Flags, a: string, b: string)
    requires !Confirmed(a) && !Confirmed(b)
    ensures Run(ts, f, a, b).Continue? ==> Run(ts, f, a, b).tasks == AddStep(ts, f)
  {
  }

  /** With every flag at its default, the collection is handed on untouched. */
  lemma RunDefaults(ts: seq<Task>, a: string, b: string)
    ensures Run(ts, DefaultFlags, a, b) == Continue(ts)
  {
  }

  /** An omitted `-due` (the empty default) never sets a due time, on add or on update. */
  lemma DefaultDueSetsNothing(t: Task, f: Flags)
    requires f.due == ""
    ensures MakeTask(f).due == None
    ensures UpdateFields(t, f).due == t.due
  {
    Refused();
  }

  /**
    Adding and updating in one call, with the id the new task receives,
    leaves exactly the task the add step built.
   */
  lemma AddThenUpdateNewTask(ts: seq<Task>, f: Flags, a: string, b: string)
    requires f.add && f.name != "" && f.update && !f.delete
    requires f.id == |ts| && Confirmed(a)
    ensures Run(ts, f, a, b) == Continue(ts + [MakeTask(f)])
  {
    var added := AddStep(ts, f);
    UpdateFieldsIdempotent(NewTask(f.name), f);
    MakeTaskIsMergeIntoNew(f);
    assert added[f.id := UpdateFields(added[f.id], f)] == added;
  }

  /**
    An id the written guard lets through but that names no task (-1, or the
    largest `int`) makes update and delete panic instead of reporting a
    missing task.
   */
  lemma BadIdPanics(ts: seq<Task>, f: Flags, a: string, b: string)
    requires |ts| < MaxInt
    requires (f.update || f.delete) && (f.id == -1 || f.id == MaxInt)
    ensures Run(ts, f, a, b) == Panicked
  {
    RunOutcome(ts, f, a, b);
  }
}

=== FILE: due_date.dfy ===
/**
  The due-date validator `date_flag_valid`: the value of `-due` must match
  the anchored pattern `^[0-9][0-9][0-9][0-9]-[0-9][0-9]-[0-9][0-9] [0-9][0-9]:[0-9][0-9] [A|P]M$`.
  Every element of that pattern matches exactly one character, so the pattern
  is modelled as a sequence of character classes matched position by position.
 */
module DueDate {
  import opened Text

  /** One element of the pattern: a bracket expression or a literal character. */
  datatype CharClass = AnyDigit | Exactly(c: char) | OneOf(members: set<char>)

  predicate Admits(k: CharClass, c: char) {
    match k
    case AnyDigit => IsAsciiDigit(c)
    case Exactly(d) => c == d
    case OneOf(members) => c in members
  }

  /** `[A|P]` is a bracket expression, so the bar is one of its members, not an alternation. */
  const Meridiem: CharClass := OneOf({'A', '|', 'P'})

  /** The pattern between `^` and `$`, one class per character of `YYYY-MM-DD HH:MM AM`. */
  const DuePattern: seq<CharClass> := [
    AnyDigit, AnyDigit, AnyDigit, AnyDigit, Exactly('-'),
    AnyDigit, AnyDigit, Exactly('-'),
    AnyDigit, AnyDigit, Exactly(' '),
    AnyDigit, AnyDigit, Exactly(':'),
    AnyDigit, AnyDigit, Exactly(' '),
    Meridiem, Exactly('M')
  ]

  /**
    Whole-string match of a class sequence: `^` pins the first class to the
    first character and `$` (without the multi-line flag) pins the last one
    to the end of the text, so a trailing newline is not allowed.
   */
  function MatchesAnchored(p: seq<CharClass>, s: string): (r: bool)
    ensures r ==> |s| == |p|
  {
    if |p| == 0 then |s| == 0
    else |s| > 0 && Admits(p[0], s[0]) && MatchesAnchored(p[1..], s[1..])
  }

  /** `date_flag_valid`: a purely lexical check of the `-due` value. */
  function DateFlagValid(s: string): (r: bool)
    ensures r ==> |s| == 19
  {
    MatchesAnchored(DuePattern, s)
  }

  /** The accepted language written out position by position. */
  predicate DueShape(s: string) {
    && |s| == 19
    && IsAsciiDigit(s[0]) && IsAsciiDigit(s[1]) && IsAsciiDigit(s[2]) && IsAsciiDigit(s[3])
    && s[4] == '-'
    && IsAsciiDigit(s[5]) && IsAsciiDigit(s[6])
    && s[7] == '-'
    && IsAsciiDigit(s[8]) && IsAsciiDigit(s[9])
    && s[10] == ' '
    && IsAsciiDigit(s[11]) && IsAsciiDigit(s[12])
    && s[13] == ':'
    && IsAsciiDigit(s[14]) && IsAsciiDigit(s[15])
    && s[16] == ' '
    && (s[17] == 'A' || s[17] == 'P' || s[17] == '|')
    && s[18] == 'M'
  }

  /** An anchored match is the same as: equal length, and every class admits its character. */
  lemma {:induction false} MatchesAnchoredPointwise(p: seq<CharClass>, s: string)
    ensures MatchesAnchored(p, s) <==>
            |s| == |p| && forall i :: 0 <= i < |p| ==> Admits(p[i], s[i])
  {
    if |p| > 0 && |s| > 0 {
      MatchesAnchoredPointwise(p[1..], s[1..]);
      if |s| == |p| && forall i :: 0 <= i < |p| ==> Admits(p[i], s[i]) {
        forall i | 0 <= i < |p| - 1 ensures Admits(p[1..][i], s[1..][i]) {
          assert Admits(p[i + 1], s[i + 1]);
        }
      }
      if MatchesAnchored(p, s) {
        forall i | 0 <= i < |p| ensures Admits(p[i], s[i]) {
          if i > 0 { assert Admits(p[1..][i - 1], s[1..][i - 1]); }
        }
      }
    }
  }

  /** The exact accepted language, in both directions. */
  lemma DateFlagValidIff(s: string)
    ensures DateFlagValid(s) <==> DueShape(s)
  {
    MatchesAnchoredPointwise(DuePattern, s);
    DueShapePointwise(s);
  }

  /** `DueShape` is the pattern read class by class. */
  lemma DueShapePointwise(s: string)
    ensures DueShape(s) <==>
            |s| == |DuePattern| && forall i :: 0 <= i < |DuePattern| ==> Admits(DuePattern[i], s[i])
  {
    if DueShape(s) {
      forall i | 0 <= i < |DuePattern| ensures Admits(DuePattern[i], s[i]) {
      }
    }
  }

  /**
    In an accepted string, the meridiem character can be swapped for `A`,
    `P` or `|` and for nothing else: lower case and other letters are refused.
   */
  lemma MeridiemSlot(s: string, c: char)
    requires DateFlagValid(s)
    ensures DateFlagValid(s[17 := c]) <==> c == 'A' || c == 'P' || c == '|'
  {
    DateFlagValidIff(s);
    DateFlagValidIff(s[17 := c]);
  }

  /** No range check is made: month, day, hour and minute 99 pass, as does the `|M` meridiem. */
  lemma LexicalOnly(s: string)
    requires s == "2024-99-99 99:99 PM" || s == "0000-00-00 00:00 |M"
    ensures DateFlagValid(s)
  {
    assert DueShape(s);
    DateFlagValidIff(s);
  }

  /**
    The empty string (the default of `-due`), a one-digit hour, lower-case
    `pm` and a trailing newline are refused.
   */
  lemma Refused()
    ensures !DateFlagValid("")
    ensures !DateFlagValid("2024-01-15 9:30 PM")
    ensures !DateFlagValid("2024-01-15 09:30 pm")
    ensures !DateFlagValid("2024-01-15 09:30 PM\n")
  {
    DateFlagValidIff("2024-01-15 09:30 pm");
  }
}

=== FILE: strconv.dfy ===
/**
  `strconv.Atoi` as the priority flag uses it: the error is discarded, so
  the priority is the parsed value, or 0 when the text is not a base-10
  integer. Integers are unbounded here (see README for the 64-bit range).
 */
module Strconv {
  import opened Text
  import opened Wrappers

  predicate AllDigits(s: string) {
    forall i :: 0 <= i < |s| ==> IsAsciiDigit(s[i])
  }

  function DigitValue(c: char): (d: nat)
    requires IsAsciiDigit(c)
    ensures d < 10
  {
    (c as int) - ('0' as int)
  }

  function DigitChar(d: nat): (c: char)
    requires d < 10
    ensures IsAsciiDigit(c) && DigitValue(c) == d
  {
    (('0' as int) + d) as char
  }

  function Pow10(k: nat): (p: nat)
    ensures p >= 1
  {
    if k == 0 then 1 else 10 * Pow10(k - 1)
  }

  /** Value of a digit string, most significant digit first. */
  function DigitsValue(s: string): (n: nat)
    requires AllDigits(s)
    ensures n < Pow10(|s|)
  {
    if |s| == 0 then 0
    else DigitsValue(s[..|s| - 1]) * 10 + DigitValue(s[|s| - 1])
  }

  /** Decimal rendering of a natural number, the reference the parser is checked against. */
  function ShowNat(n: nat): (s: string)
    ensures |s| > 0 && AllDigits(s)
    ensures DigitsValue(s) == n
  {
    if n < 10 then [DigitChar(n)]
    else
      var s := ShowNat(n / 10) + [DigitChar(n % 10)];
      assert s[..|s| - 1] == ShowNat(n / 10);
      s
  }

  /** Decimal rendering of an integer, with a `-` for negatives (as `strconv.Itoa`). */
  function ShowInt(n: int): (s: string)
    ensures |s| > 0
    ensures n < 0 <==> s[0] == '-'
  {
    if n < 0 then "-" + ShowNat(-n) else ShowNat(n)
  }

  /** The base-10 syntax `strconv.Atoi` accepts: an optional `+` or `-`, then at least one ASCII digit. */
  predicate DecimalSyntax(s: string) {
    SignLength(s) < |s| && AllDigits(s[SignLength(s)..])
  }

  /** The length of the sign in front of the digits: 1 for a leading `+` or `-`, otherwise 0. */
  function SignLength(s: string): nat {
    if |s| > 0 && (s[0] == '+' || s[0] == '-') then 1 else 0
  }

  /** Parsing of a base-10 integer; anything outside `DecimalSyntax` is a syntax error. */
  function ParseDecimal(s: string): (r: Option<int>)
    ensures r.Some? <==> DecimalSyntax(s)
    ensures r.Some? && r.value < 0 ==> s[0] == '-'
  {
    if |s| == 0 then None
    else if s[0] == '+' || s[0] == '-' then
      var digits := s[1..];
      if |digits| == 0 || !AllDigits(digits) then None
      else
        var v: int := DigitsValue(digits);
        Some(if s[0] == '-' then -v else v)
    else if AllDigits(s) then
      assert s[0..] == s;
      Some(DigitsValue(s))
    else
      assert s[0..] == s;
      None
  }

  /** `strconv.Atoi` with its error discarded: a syntax error yields 0. */
  function Atoi(s: string): (r: int)
    ensures r != 0 ==> DecimalSyntax(s)
  {
    ParseDecimal(s).GetOr(0)
  }

  /** Parsing inverts rendering, for every integer. */
  lemma ParseShowInt(n: int)
    ensures ParseDecimal(ShowInt(n)) == Some(n)
    ensures Atoi(ShowInt(n)) == n
  {
    if n < 0 {
      assert ShowInt(n)[1..] == ShowNat(-n);
    } else {
      assert ShowInt(n)[0] == ShowNat(n)[0];
    }
  }

  /** Raising the exponent never lowers a power of ten. */
  lemma {:induction false} Pow10Monotone(j: nat, k: nat)
    requires j <= k
    ensures Pow10(j) <= Pow10(k)
  {
    if j < k {
      Pow10Monotone(j, k - 1);
    }
  }

  /** The parsed value has no more decimal digits than the text after its sign. */
  lemma AtoiMagnitude(s: string)
    ensures SignLength(s) <= |s|
    ensures var b: int := Pow10(|s| - SignLength(s)); -b < Atoi(s) < b
  {
    if DecimalSyntax(s) {
      var digits := s[SignLength(s)..];
      var v: int := DigitsValue(digits);
      assert v < Pow10(|s| - SignLength(s));
      if SignLength(s) == 1 {
        assert digits == s[1..];
        assert Atoi(s) == if s[0] == '-' then -v else v;
      } else {
        assert digits == s;
        assert Atoi(s) == v;
      }
    }
  }

  /** Powers of ten multiply by adding exponents. */
  lemma {:induction false} Pow10Add(j: nat, k: nat)
    ensures Pow10(j + k) == Pow10(j) * Pow10(k)
  {
    if k > 0 {
      Pow10Add(j, k - 1);
    }
  }

  /** `k` zero digits. */
  function Zeros(k: nat): (z: string)
    ensures |z| == k && AllDigits(z)
  {
    seq(k, _ => '0')
  }

  /** A sign and any number of leading zeros around the rendering of `n` parse to `n` with that sign. */
  lemma ParseSignAndZeros(k: nat, n: nat)
    ensures ParseDecimal(Zeros(k) + ShowNat(n)) == Some(n)
    ensures ParseDecimal("+" + (Zeros(k) + ShowNat(n))) == Some(n)
    ensures ParseDecimal("-" + (Zeros(k) + ShowNat(n))) == Some(-(n as int))
  {
    var digits := ShowNat(n);
    ZerosPrefix(k, digits);
    ParseSigned(Zeros(k) + digits);
  }

  /** A non-empty digit string parses to its value, with no sign, with `+` and with `-`. */
  lemma {:induction false} ParseSigned(d: string)
    requires |d| > 0 && AllDigits(d)
    ensures ParseDecimal(d) == Some(DigitsValue(d))
    ensures ParseDecimal("+" + d) == Some(DigitsValue(d))
    ensures ParseDecimal("-" + d) == Some(-(DigitsValue(d) as int))
  {
    var plus, minus := "+" + d, "-" + d;
    assert ParseDecimal(d) == Some(DigitsValue(d));
    assert ParseDecimal(plus) == Some(DigitsValue(d)) by {
      assert plus[0] == '+' && plus[1..] == d;
    }
    assert ParseDecimal(minus) == Some(-(DigitsValue(d) as int)) by {
      assert minus[0] == '-' && minus[1..] == d;
    }
  }

  /**
    Every text that parses is an optional sign, some zeros, and the
    decimal rendering of the parsed value's magnitude.
   */
  lemma ParsedIsPaddedRendering(s: string)
    requires ParseDecimal(s).Some?
    ensures var v := ParseDecimal(s).value;
            exists k: nat :: s[SignLength(s)..] == Zeros(k) + ShowNat(if v < 0 then -v else v)
  {
    var v := ParseDecimal(s).value;
    var digits := s[SignLength(s)..];
    var m := DigitsValue(digits);
    assert (if v < 0 then -v else v) == m;
    var c := StripZeros(digits);
    var k := |digits| - |c|;
    assert digits == Zeros(k) + c;
    ZerosPrefix(k, c);
    CanonicalDigits(c);
    assert ShowNat(m) == c;
  }

  /** The digit string with redundant leading zeros removed (one zero stays for the value 0). */
  function StripZeros(d: string): (c: string)
    requires |d| > 0 && AllDigits(d)
    ensures |c| > 0 && AllDigits(c) && (c[0] != '0' || |c| == 1)
    ensures |c| <= |d| && d == Zeros(|d| - |c|) + c
  {
    if |d| > 1 && d[0] == '0' then
      var c := StripZeros(d[1..]);
      assert Zeros(|d| - |c|) == "0" + Zeros(|d| - 1 - |c|);
      c
    else
      assert Zeros(0) == "";
      d
  }

  /** A digit string without a redundant leading zero is the rendering of its own value. */
  lemma {:induction false} CanonicalDigits(d: string)
    requires |d| > 0 && AllDigits(d) && (d[0] != '0' || |d| == 1)
    ensures ShowNat(DigitsValue(d)) == d
  {
    var last := d[|d| - 1];
    assert DigitChar(DigitValue(last)) == last;
    if |d| > 1 {
      var init := d[..|d| - 1];
      CanonicalDigits(init);
      LeadingNonZero(init);
      var v := DigitsValue(d);
      assert v / 10 == DigitsValue(init) && v % 10 == DigitValue(last);
      assert d == init + [last];
    }
  }

  /** A digit string that does not start with `0` denotes a positive number. */
  lemma {:induction false} LeadingNonZero(d: string)
    requires |d| > 0 && AllDigits(d) && d[0] != '0'
    ensures DigitsValue(d) >= 1
  {
    if |d| > 1 {
      LeadingNonZero(d[..|d| - 1]);
    }
  }

  lemma {:induction false} ZerosPrefix(k: nat, d: string)
    requires AllDigits(d)
    ensures AllDigits(Zeros(k) + d) && DigitsValue(Zeros(k) + d) == DigitsValue(d)
  {
    if k > 0 {
      assert Zeros(k) == "0" + Zeros(k - 1);
      assert Zeros(k) + d == "0" + (Zeros(k - 1) + d);
      ZerosPrefix(k - 1, d);
      ZeroPrefix(Zeros(k - 1) + d);
    } else {
      assert Zeros(k) + d == d;
    }
  }

  lemma {:induction false} ZeroPrefix(s: string)
    requires AllDigits(s)
    ensures AllDigits("0" + s) && DigitsValue("0" + s) == DigitsValue(s)
  {
    if |s| > 0 {
      var t := "0" + s;
      assert t[..|t| - 1] == "0" + s[..|s| - 1];
      ZeroPrefix(s[..|s| - 1]);
    }
  }

  /**
    Text that is not a base-10 integer gives priority 0: the empty string
    (the default of `-priority`), a bare sign, surrounding blanks, a
    fraction, and letters.
   */
  lemma AtoiSyntaxErrors()
    ensures Atoi("") == 0
    ensures Atoi("-") == 0 && Atoi("+") == 0
    ensures Atoi(" 7") == 0 && Atoi("7 ") == 0
    ensures Atoi("1.5") == 0
    ensures Atoi("high") == 0
  {
    assert " 7"[0] == ' ' && "7 "[1] == ' ' && "1.5"[1] == '.' && "high"[0] == 'h';
  }
}

=== FILE: tasks.dfy ===
/**
  The task entity and the two positional collection operations the
  commands call: registration (the new task's id is its position) and
  deletion by id (later tasks move down one position).
 */
module Tasks {
  import opened Wrappers

  /** The parsed `-due` value, represented by the validated text it came from. */
  datatype DueStamp = DueStamp(text: string)

  /** A task; `due` is `None` where the program keeps Go's zero time. */
  datatype Task = Task(name: string, priority: int, due: Option<DueStamp>)

  /** A fresh task: the given name, priority 0 and no due time. */
  function NewTask(name: string): Task {
    Task(name, 0, None)
  }

  /** Registration appends the task and answers its id, the old length. */
  function Register(ts: seq<Task>, t: Task): (r: (seq<Task>, nat))
    ensures |r.0| == |ts| + 1 && r.0[..|ts|] == ts
    ensures r.1 == |ts| && r.0[r.1] == t
  {
    (ts + [t], |ts|)
  }

  /** Deletion by id: the task at `id` goes, the ones after it shift down by one. */
  function RemoveAt(ts: seq<Task>, id: nat): (r: seq<Task>)
    requires id < |ts|
    ensures |r| == |ts| - 1
    ensures forall j :: 0 <= j < id ==> r[j] == ts[j]
    ensures forall j :: id <= j < |r| ==> r[j] == ts[j + 1]
  {
    ts[..id] + ts[id + 1..]
  }

  /** Putting the removed task back at its position restores the collection. */
  lemma RemoveAtReinsert(ts: seq<Task>, id: nat)
    requires id < |ts|
    ensures RemoveAt(ts, id)[..id] + [ts[id]] + RemoveAt(ts, id)[id..] == ts
  {
    var r := RemoveAt(ts, id);
    assert r[..id] == ts[..id];
    assert r[id..] == ts[id + 1..];
    assert ts == ts[..id] + [ts[id]] + ts[id + 1..];
  }

  /** Deleting the task just registered gives back the collection before registration. */
  lemma RegisterThenRemove(ts: seq<Task>, t: Task)
    ensures RemoveAt(Register(ts, t).0, Register(ts, t).1) == ts
  {
    var (r, id) := Register(ts, t);
    assert r[..id] == ts;
  }
}

=== FILE: text.dfy ===
/**
  Character classes and the string clean-up the command prompt applies to
  the user's answer: removal of every newline (a `strings.Replacer` from
  "\n" to "") followed by `strings.TrimSpace`.
 */
module Text {

  /** `[0-9]` in the date pattern and a decimal digit for `strconv.Atoi`. */
  predicate IsAsciiDigit(c: char) {
    '0' <= c <= '9'
  }

  /**
    The Unicode White_Space property, which is what Go's `unicode.IsSpace`
    (and so `strings.TrimSpace`) tests.
   */
  predicate IsSpace(c: char) {
    || '\t' <= c <= '\r'
    || c == ' '
    || c == '\U{0085}'
    || c == '\U{00A0}'
    || c == '\U{1680}'
    || '\U{2000}' <= c <= '\U{200A}'
    || c == '\U{2028}'
    || c == '\U{2029}'
    || c == '\U{202F}'
    || c == '\U{205F}'
    || c == '\U{3000}'
  }

  predicate AllSpace(s: string) {
    forall i :: 0 <= i < |s| ==> IsSpace(s[i])
  }

  /** Reference view of a string: its non-white-space characters, in order. */
  function KeepNonSpace(s: string): (r: string)
    ensures |r| <= |s|
    ensures forall i :: 0 <= i < |r| ==> !IsSpace(r[i])
  {
    if |s| == 0 then []
    else if IsSpace(s[0]) then KeepNonSpace(s[1..])
    else [s[0]] + KeepNonSpace(s[1..])
  }

  /**
    `r` keeps every non-newline character of `s`, in order: the character at
    position `i` of `s` lands at `i` minus the number of newlines before it.
   */
  predicate KeepsOthersInOrder(s: string, r: string) {
    forall i :: 0 <= i < |s| && s[i] != '\n' ==>
      && i - multiset(s[..i])['\n'] < |r|
      && r[i - multiset(s[..i])['\n']] == s[i]
  }

  /** Every `"\n"` deleted, all other characters kept in order. */
  function RemoveNewlines(s: string): (r: string)
    ensures '\n' !in r
    ensures |r| == |s| - multiset(s)['\n']
    ensures KeepsOthersInOrder(s, r)
  {
    if |s| == 0 then []
    else
      assert s == [s[0]] + s[1..];
      var rest := RemoveNewlines(s[1..]);
      var r := if s[0] == '\n' then rest else [s[0]] + rest;
      KeepsOthersInOrderCons(s, rest, r);
      r
  }

  /** One step of `RemoveNewlines`: dropping or keeping the first character preserves the order property. */
  lemma KeepsOthersInOrderCons(s: string, rest: string, r: string)
    requires |s| > 0 && KeepsOthersInOrder(s[1..], rest)
    requires r == if s[0] == '\n' then rest else [s[0]] + rest
    ensures KeepsOthersInOrder(s, r)
  {
    forall i | 0 <= i < |s| && s[i] != '\n'
      ensures i - multiset(s[..i])['\n'] < |r| && r[i - multiset(s[..i])['\n']] == s[i]
    {
      if i > 0 {
        var t := s[1..];
        assert s[..i] == [s[0]] + t[..i - 1];
        assert multiset(s[..i]) == multiset([s[0]]) + multiset(t[..i - 1]);
        assert t[i - 1] == s[i];
      }
    }
  }

  /** The first position at or after `i` that does not hold white space (or the end). */
  function TrimStart(s: string, i: nat): (k: nat)
    requires i <= |s|
    ensures i <= k <= |s|
    ensures forall j :: i <= j < k ==> IsSpace(s[j])
    ensures k < |s| ==> !IsSpace(s[k])
    decreases |s| - i
  {
    if i < |s| && IsSpace(s[i]) then TrimStart(s, i + 1) else i
  }

  /** The end of `s[lo..hi]` once trailing white space is dropped. */
  function TrimStop(s: string, lo: nat, hi: nat): (e: nat)
    requires lo <= hi <= |s|
    ensures lo <= e <= hi
    ensures forall j :: e <= j < hi ==> IsSpace(s[j])
    ensures e > lo ==> !IsSpace(s[e - 1])
  {
    if hi > lo && IsSpace(s[hi - 1]) then TrimStop(s, lo, hi - 1) else hi
  }

  /** `strings.TrimSpace`: the slice of `s` left once leading and trailing white space are dropped. */
  function TrimSpace(s: string): (r: string)
    ensures var k := TrimStart(s, 0);
            && k + |r| <= |s|
            && r == s[k..k + |r|]
            && (forall j :: 0 <= j < k ==> IsSpace(s[j]))
            && (forall j :: k + |r| <= j < |s| ==> IsSpace(s[j]))
    ensures |r| > 0 ==> !IsSpace(r[0]) && !IsSpace(r[|r| - 1])
  {
    var k := TrimStart(s, 0);
    s[k..TrimStop(s, k, |s|)]
  }

  lemma AllSpaceAppend(a: string, b: string)
    ensures AllSpace(a + b) <==> AllSpace(a) && AllSpace(b)
  {
    if AllSpace(a) && AllSpace(b) {
      forall i | 0 <= i < |a + b| ensures IsSpace((a + b)[i]) {
        if i < |a| { assert (a + b)[i] == a[i]; } else { assert (a + b)[i] == b[i - |a|]; }
      }
    }
    if AllSpace(a + b) {
      forall i | 0 <= i < |a| ensures IsSpace(a[i]) { assert (a + b)[i] == a[i]; }
      forall i | 0 <= i < |b| ensures IsSpace(b[i]) { assert (a + b)[|a| + i] == b[i]; }
    }
  }

  lemma {:induction false} KeepNonSpaceAppend(a: string, b: string)
    ensures KeepNonSpace(a + b) == KeepNonSpace(a) + KeepNonSpace(b)
  {
    if |a| == 0 {
      assert a + b == b;
    } else {
      assert (a + b)[0] == a[0];
      assert (a + b)[1..] == a[1..] + b;
      KeepNonSpaceAppend(a[1..], b);
    }
  }

  /** A string has no non-white-space character exactly when it is all white space. */
  lemma {:induction false} KeepNonSpaceEmptyIff(s: string)
    ensures KeepNonSpace(s) == [] <==> AllSpace(s)
  {
    if |s| > 0 {
      KeepNonSpaceEmptyIff(s[1..]);
      assert s == [s[0]] + s[1..];
      AllSpaceAppend([s[0]], s[1..]);
    }
  }

  /** Deleting newlines never changes the non-white-space content. */
  lemma {:induction false} RemoveNewlinesKeepsNonSpace(s: string)
    ensures KeepNonSpace(RemoveNewlines(s)) == KeepNonSpace(s)
  {
    if |s| > 0 {
      RemoveNewlinesKeepsNonSpace(s[1..]);
      if s[0] != '\n' {
        var t := [s[0]] + RemoveNewlines(s[1..]);
        assert t[0] == s[0] && t[1..] == RemoveNewlines(s[1..]);
      }
    }
  }

  /** White space around a string adds no non-white-space content. */
  lemma KeepNonSpaceSurrounded(before: string, m: string, after: string)
    requires AllSpace(before) && AllSpace(after)
    ensures KeepNonSpace(before + m + after) == KeepNonSpace(m)
  {
    KeepNonSpaceAppend(before + m, after);
    KeepNonSpaceAppend(before, m);
    KeepNonSpaceEmptyIff(before);
    KeepNonSpaceEmptyIff(after);
  }

  /** A string whose ends up to `k` and from `e` are white space splits there into three parts. */
  lemma SplitAtSpaces(s: string, k: nat, e: nat)
    requires k <= e <= |s|
    requires forall j :: 0 <= j < k ==> IsSpace(s[j])
    requires forall j :: e <= j < |s| ==> IsSpace(s[j])
    ensures s == s[..k] + s[k..e] + s[e..]
    ensures AllSpace(s[..k]) && AllSpace(s[e..])
  {
    forall i | 0 <= i < |s[e..]| ensures IsSpace(s[e..][i]) {
      assert s[e..][i] == s[e + i];
    }
  }

  /** Dropping white space from both ends of a string keeps its non-white-space content. */
  lemma KeepNonSpaceOfSlice(s: string, k: nat, e: nat)
    requires k <= e <= |s|
    requires forall j :: 0 <= j < k ==> IsSpace(s[j])
    requires forall j :: e <= j < |s| ==> IsSpace(s[j])
    ensures KeepNonSpace(s[k..e]) == KeepNonSpace(s)
  {
    SplitAtSpaces(s, k, e);
    KeepNonSpaceSurrounded(s[..k], s[k..e], s[e..]);
  }

  /** Trimming never changes the non-white-space content. */
  lemma TrimSpaceKeepsNonSpace(s: string)
    ensures KeepNonSpace(TrimSpace(s)) == KeepNonSpace(s)
  {
    var r := TrimSpace(s);
    var k := TrimStart(s, 0);
    KeepNonSpaceOfSlice(s, k, k + |r|);
  }

  /** One non-white-space character padded by white space is all the content there is. */
  lemma KeepNonSpacePadded(before: string, c: char, after: string)
    requires AllSpace(before) && AllSpace(after) && !IsSpace(c)
    ensures KeepNonSpace(before + [c] + after) == [c]
  {
    KeepNonSpaceSurrounded(before, [c], after);
  }

  /** Trimming leaves nothing exactly when the string is all white space. */
  lemma TrimSpaceEmptyIff(s: string)
    ensures |TrimSpace(s)| == 0 <==> AllSpace(s)
  {
    var t := TrimSpace(s);
    TrimSpaceKeepsNonSpace(s);
    KeepNonSpaceEmptyIff(s);
    if |t| > 0 {
      assert KeepNonSpace(t) == [t[0]] + KeepNonSpace(t[1..]);
    }
  }

  /** A string that ends in a non-white-space character has some non-white-space content. */
  lemma {:induction false} LastNonSpaceKept(u: string)
    requires |u| > 0 && !IsSpace(u[|u| - 1])
    ensures KeepNonSpace(u) != []
  {
    assert u == u[..|u| - 1] + [u[|u| - 1]];
    KeepNonSpaceAppend(u[..|u| - 1], [u[|u| - 1]]);
  }

  /**
    The trimmed string is exactly the one character `c` iff `c` is the only
    non-white-space character of the original.
   */
  lemma TrimSpaceIsSingle(s: string, c: char)
    requires !IsSpace(c)
    ensures TrimSpace(s) == [c] <==> KeepNonSpace(s) == [c]
  {
    var t := TrimSpace(s);
    TrimSpaceKeepsNonSpace(s);
    if KeepNonSpace(s) == [c] {
      assert |t| > 0;
      assert t == [t[0]] + t[1..];
      KeepNonSpaceAppend([t[0]], t[1..]);
      if |t| > 1 {
        LastNonSpaceKept(t[1..]);
      }
    }
  }
}

=== FILE: wrappers.dfy ===
/** Presence or absence of a value: a task's due time, and the outcome of a parse. */
module Wrappers {

  datatype Option<+T> = None | Some(value: T) {

    /** Go's "value, or the zero the caller picks" idiom: the payload when present. */
    function GetOr(default: T): (r: T)
      ensures Some? ==> r == value
      ensures None? ==> r == default
    {
      if Some? then value else default
    }
  }
}
